=== FILE: README.md ===
# Adjustable stack resize engine and toolbar dock helpers, in Dafny

This project models the resize engine of Laminar's toolbar panel. It also
models two small helpers that sit next to the engine.

**The adjustable stack.** A stack of panels has resize handles between
neighbouring panels and at both ends. Each handle has a mode: `None`,
`ArrowBefore`, `Default` or `ArrowAfter`. One drag sample at handle `index`
goes through these steps:

1. Read the space before and after the handle from the prefix-size table.
2. Transform the raw drag amount.
3. Choose a strategy for each side of the handle: `SqueezeExpand`, `Cascade` or `ChangeStackSize`.
4. Override the strategy of a side that faces out of the stack.
5. Put a stack-size change in front of either side when the stack's flags allow it.
6. Run the side that must shrink first.
7. Ask the other side to grow by exactly the space the first side freed.

The drag sample returns what the growing side achieved.

**Size changes.** Sizes are changed through an accessor with two operations:

- an unclamped `Resize`;
- a `TryResize` that is clamped at the element's minimum and reports the change it achieved.

**Policy.** The boundary policy has two parts:

- the mode-to-strategies table;
- the rule that says which modes a handle may offer at a given position.

**Helpers.** Two helpers are modelled:

- the direction algebra: four reading directions, and the quarter-turn rotation of a rectangle between two of them;
- the toolbar dock: the orientation its constructor records for each window edge, the conversion from dock coordinates to panel coordinates, and the find-or-insert lookup of a toolbar layer by level.

**Modules.** There is one file per component:

- `resizer_modes.dfy`: module `ResizerModes`.
- `resizing_harness.dfy`: module `ResizingHarness`.
- `resize.dfy`: modules `Resize` and `ResizeAccounting`.
- `direction.dfy`: module `Directions`.
- `toolbar_dock.dfy`: module `ToolbarDocks`.
- `geometry.dfy` and `wrappers.dfy` hold the shared value types.

**Numbers.** Sizes and rectangles are `real`. The source only adds,
subtracts, compares, takes maxima and scales them, so reals model it exactly
apart from IEEE rounding.

**Elements and the accessor.** An element of the stack is named by its
position. The accessor is modelled as the current sizes plus the minimums.
Reading a size back after writing it yields the written value. The accessor
interface does not state this; the model assumes it.

**What is passed in.** The strategy runner (`RunMethods`) and the amount
transformation are parameters of `Execute`. `Execute` records every runner
call it makes, with the call's arguments and answers. Its contract therefore
states the orchestration itself: which view and pipeline each side gets,
what each side is asked for, in which order, and how the state is threaded
between the two calls.

## Model

| member | source | states |
|---|---|---|
| ResizerModes.AllModes | src/Laminar.Avalonia.ToolbarPanel/AdjustableStackPanel/ResizerMode.cs:3-15 | The selectable modes are every declared mode except None, in declaration order: exactly ArrowBefore, Default, ArrowAfter |
| ResizerModes.GetResizeMethods | src/Laminar.Avalonia.ToolbarPanel/AdjustableStackPanel/ResizerMode.cs:17-23 | A mode has strategies exactly when it is selectable; ChangeStackSize never comes from the table; SqueezeExpand is on the side the arrow points to, and only there |
| ResizerModes.MirrorSwapsMethods | src/Laminar.Avalonia.ToolbarPanel/AdjustableStackPanel/ResizerMode.cs:17-23 | Exchanging the two arrow modes exchanges the before and after strategies; the table is symmetric |
| ResizerModes.IsAccessible | src/Laminar.Avalonia.ToolbarPanel/AdjustableStackPanel/ResizerMode.cs:25-31 | Only selectable modes are ever accessible. Default is accessible everywhere. ArrowBefore is accessible exactly from index 1 on. ArrowAfter is never accessible at the last index, at the second-to-last index exactly when the stack cannot consume space after itself, and always elsewhere, including past the last index |
| ResizerModes.AccessibilityFlagIndependence | src/Laminar.Avalonia.ToolbarPanel/AdjustableStackPanel/ResizerMode.cs:25-31 | Only the ArrowAfter rule depends on the flags, and it depends only on CanConsumeSpaceAfterStack |
| ResizingHarness.SetSize | src/Laminar.Avalonia.ToolbarPanel/AdjustableStackPanel/IResizingHarness.cs:5-12 | Reading a size back after writing it yields the written value; no other size and no minimum changes (an assumption about the accessor) |
| ResizingHarness.Resize | src/Laminar.Avalonia.ToolbarPanel/AdjustableStackPanel/IResizingHarness.cs:16-20 | The element's new size is its old size plus the change, with no clamping even below the minimum; every other element keeps its size |
| ResizingHarness.ResizeInverse | src/Laminar.Avalonia.ToolbarPanel/AdjustableStackPanel/IResizingHarness.cs:16-20 | Resizing by c and then by -c restores the accessor state exactly |
| ResizingHarness.ResizeCompose | src/Laminar.Avalonia.ToolbarPanel/AdjustableStackPanel/IResizingHarness.cs:16-20 | Two unclamped resizes of one element equal one resize by their sum |
| ResizingHarness.TryResize | src/Laminar.Avalonia.ToolbarPanel/AdjustableStackPanel/IResizingHarness.cs:22-36 | The new size is the larger of the minimum and old plus change, and it is written even when the call then throws. The call throws exactly when that size is negative, which needs a negative minimum. Otherwise the final size is the original plus the returned change |
| ResizingHarness.TryResizeSucceedsWithValidMinimum | src/Laminar.Avalonia.ToolbarPanel/AdjustableStackPanel/IResizingHarness.cs:27-33 | With a non-negative minimum the clamped resize never throws, and it leaves the size at or above the minimum |
| ResizingHarness.TryResizeExactWhenRoomy | src/Laminar.Avalonia.ToolbarPanel/AdjustableStackPanel/IResizingHarness.cs:25-35 | When old plus change respects the minimum, the clamped resize is the unclamped one and achieves exactly the change |
| ResizingHarness.TryResizeAchievedBounds | src/Laminar.Avalonia.ToolbarPanel/AdjustableStackPanel/IResizingHarness.cs:25-35 | From a size at or above the minimum, a negative request achieves a value between the request and 0, and a non-negative request is achieved exactly |
| ResizingHarness.TryResizePreservesMinimums | src/Laminar.Avalonia.ToolbarPanel/AdjustableStackPanel/IResizingHarness.cs:27-28 | If every element is at or above its minimum before a clamped resize, every element still is afterwards |
| ResizingHarness.TryResizeLiftsToMinimum | src/Laminar.Avalonia.ToolbarPanel/AdjustableStackPanel/IResizingHarness.cs:27-35 | When old plus change falls below the minimum, the clamped resize sets the minimum and reports minimum minus old, whatever was requested |
| Resize.SidesPartitionStack | src/Laminar.Avalonia.ToolbarPanel/AdjustableStackPanel/Resize.cs:31-32 | The before view walks index, index-1, ..., 0 and the after view walks index+1, ..., n-1. The two views are disjoint and together cover the stack |
| ResizeAccounting.SpacesAreViewSums | src/Laminar.Avalonia.ToolbarPanel/AdjustableStackPanel/Resize.cs:7-8 | When entry k of the prefix table totals elements 0 to k, the space before a handle is the total of the elements its before view walks, and the space after it is the total of the elements its after view walks |
| Resize.ResolveMethods | src/Laminar.Avalonia.ToolbarPanel/AdjustableStackPanel/Resize.cs:12-25 | An inert mode has no strategies. At the trailing boundary the after strategy is ChangeStackSize; at the leading boundary the before strategy is; on an empty stack both are. Away from a boundary the table's strategy for that side is kept |
| Resize.AccessibleArrowSurvivesOverride | src/Laminar.Avalonia.ToolbarPanel/AdjustableStackPanel/Resize.cs:17-25 | When an arrow mode is accessible at a handle, the boundary overrides never replace the squeeze on the arrow's side |
| Resize.Pipeline | src/Laminar.Avalonia.ToolbarPanel/AdjustableStackPanel/Resize.cs:27-29 | A side's pipeline ends with its strategy, and is preceded by ChangeStackSize exactly when its flag is set |
| Resize.ShrinkThenGrow | src/Laminar.Avalonia.ToolbarPanel/AdjustableStackPanel/Resize.cs:34-45 | A zero amount makes no call and changes nothing. A positive amount first asks the after side for -amount, then asks the before side for the negation of what was achieved. A negative amount does the mirror image. The state is threaded from the first call into the second, and the second call's achievement is the result |
| Resize.Execute | src/Laminar.Avalonia.ToolbarPanel/AdjustableStackPanel/Resize.cs:5-46 | A prefix-table read out of range is a PrefixIndexOutOfRange error, and with readable entries an unusable view is a SliceOutOfRange error. Mode None returns 0 and leaves the state unchanged. Otherwise the two-phase step runs on the transformed amount. Each side gets its resolved pipeline, its view and its space, and the slack is passed unchanged |
| ResizeAccounting.ExecuteNetChange | src/Laminar.Avalonia.ToolbarPanel/AdjustableStackPanel/Resize.cs:34-43 | Suppose every runner call changes the total size by what it reports. Then a sample changes the stack's total only by the growing side's shortfall. A sample whose growth matches the space freed conserves the total |
| Directions.Orientation | src/Laminar.Avalonia.ToolbarPanel/AdjustableStackPanel/Direction.cs:43-50 | A direction is vertical exactly when its ordinal is even: TopToBottom and BottomToTop |
| Directions.OrientationRaw | src/Laminar.Avalonia.ToolbarPanel/AdjustableStackPanel/Direction.cs:43-50 | On raw enum values, the orientation is defined exactly for the declared directions; an undeclared value throws, naming that value |
| Directions.OrientationAlternates | src/Laminar.Avalonia.ToolbarPanel/AdjustableStackPanel/Direction.cs:43-50 | Two directions share an orientation exactly when an even number of quarter turns separates them |
| Directions.RotationArm | src/Laminar.Avalonia.ToolbarPanel/AdjustableStackPanel/Direction.cs:64-70 | The arm chosen for a (from, to) pair is (ord(to) - ord(from)) mod 4. The table covers all sixteen pairs, so the throwing arm is never taken for declared directions |
| Directions.RotateUnitComposes | src/Laminar.Avalonia.ToolbarPanel/AdjustableStackPanel/Direction.cs:66-69 | The arms compose as quarter turns: arm k after arm j is arm (j+k) mod 4 |
| Directions.RotateUnitTurnsPoints | src/Laminar.Avalonia.ToolbarPanel/AdjustableStackPanel/Direction.cs:52-53 | Arm k is the rotation by k quarter turns about the centre of the unit box, each turn taking the top edge to the left edge: a point lies in a rectangle exactly when its turned image lies in the turned rectangle |
| Directions.RotateLeadingBand | src/Laminar.Avalonia.ToolbarPanel/AdjustableStackPanel/Direction.cs:66-69 | The turn goes toward the target direction: the leading band of a top-to-bottom stack becomes the left band for LeftToRight and the right band for RightToLeft |
| Directions.OrientateRectToDirection | src/Laminar.Avalonia.ToolbarPanel/AdjustableStackPanel/Direction.cs:60-72 | An even number of quarter turns keeps the width and height; an odd number exchanges them relative to the bounds. It scales into the unit box, turns about its centre by the arm RotateUnitTurnsPoints describes, and scales back; its algebra is stated by OrientateSameDirection, OrientateCompose, OrientateInverse and OrientateStaysInside |
| Directions.OrientateSameDirection | src/Laminar.Avalonia.ToolbarPanel/AdjustableStackPanel/Direction.cs:62-71 | With nonzero bounds, orienting a direction to itself returns the rectangle unchanged |
| Directions.OrientateCompose | src/Laminar.Avalonia.ToolbarPanel/AdjustableStackPanel/Direction.cs:53-71 | Orienting from a to b and then from b to c equals orienting from a to c |
| Directions.OrientateInverse | src/Laminar.Avalonia.ToolbarPanel/AdjustableStackPanel/Direction.cs:53-71 | Orienting back from b to a undoes orienting from a to b |
| Directions.OrientateExtents | src/Laminar.Avalonia.ToolbarPanel/AdjustableStackPanel/Direction.cs:66-69 | An even number of turns keeps the width and height. An odd number exchanges them, relative to the bounds |
| Directions.OrientateStaysInside | src/Laminar.Avalonia.ToolbarPanel/AdjustableStackPanel/Direction.cs:60-72 | A rectangle inside positive bounds stays inside them after any re-orientation |
| Directions.CaseLabelIsRightToLeft | src/Laminar.Avalonia.ToolbarPanel/AdjustableStackPanel/Direction.cs:24 | The case label that joins the four directions with a bitwise or is the single value of RightToLeft |
| Directions.FindInvalidDirection | src/Laminar.Avalonia.ToolbarPanel/AdjustableStackPanel/Direction.cs:18-32 | As written, the search returns null exactly when every argument is RightToLeft. Otherwise it returns the first argument that is not RightToLeft, whether or not it is a declared direction |
| Directions.FindInvalidDirectionCorrected | src/Laminar.Avalonia.ToolbarPanel/AdjustableStackPanel/Direction.cs:18-32 | The search returns null exactly when every argument is a declared direction. Otherwise it returns the first undeclared argument |
| Directions.FindInvalidDirectionBlamesValidDirection | src/Laminar.Avalonia.ToolbarPanel/AdjustableStackPanel/Direction.cs:24-27 | For the arguments (TopToBottom, 7), the search as written blames TopToBottom; the corrected search blames 7 |
| Directions.OrientateRaw | src/Laminar.Avalonia.ToolbarPanel/AdjustableStackPanel/Direction.cs:60-72 | On raw enum values, re-orientation succeeds exactly when both values are declared directions. Otherwise it throws, whatever the bounds, naming `to` unless `to` is RightToLeft and `from` otherwise, as the search as written does |
| Directions.OrientateRawCorrected | src/Laminar.Avalonia.ToolbarPanel/AdjustableStackPanel/Direction.cs:60-72 | With the corrected search, a failed re-orientation names an undeclared argument: `to` when it is undeclared, `from` otherwise |
| Directions.OrientateRawBlamesTarget | src/Laminar.Avalonia.ToolbarPanel/AdjustableStackPanel/Direction.cs:70 | Re-orienting from the undeclared value 7 to TopToBottom throws for TopToBottom as written, and for 7 when corrected |
| ToolbarDocks.DockOrientation | src/Laminar.Avalonia.ToolbarPanel/ToolbarDock.cs:17-26 | The constructor records Vertical for left and right docks and Horizontal for top and bottom docks |
| ToolbarDocks.ConvertDockToPanelCoords | src/Laminar.Avalonia.ToolbarPanel/ToolbarDock.cs:98-105 | The extents are exchanged exactly for the vertically stacking docks. Its maps are stated by ConvertInvolutions, ConvertRightIsMirroredLeft and ConvertStaysInside |
| ToolbarDocks.ConvertSwapsAxesOfVerticalDocks | src/Laminar.Avalonia.ToolbarPanel/ToolbarDock.cs:98-105 | The conversion exchanges width and height exactly for the vertically stacking docks |
| ToolbarDocks.ConvertInvolutions | src/Laminar.Avalonia.ToolbarPanel/ToolbarDock.cs:98-105 | Top is the identity; Bottom mirrors y to H minus the bottom edge, and Left transposes the axes, so converting twice restores the rectangle for both |
| ToolbarDocks.ConvertRightIsMirroredLeft | src/Laminar.Avalonia.ToolbarPanel/ToolbarDock.cs:98-105 | The Right conversion is the Left conversion mirrored left to right within the available width |
| ToolbarDocks.ConvertStaysInside | src/Laminar.Avalonia.ToolbarPanel/ToolbarDock.cs:98-105 | A rectangle inside the dock's own frame, which has the axes exchanged for vertical docks, lands inside the available size |
| ToolbarDocks.FindLayerAtLevel | src/Laminar.Avalonia.ToolbarPanel/ToolbarDock.cs:107-135 | Let p be the first layer whose attached level is at or above the level sought. If p has exactly that level, p is returned and the children are unchanged. If p has a greater level, one new layer is inserted at the count of layers before p. If there is no such p, one new layer is appended. A new layer has its own Level set and attached level 0 |
| ToolbarDocks.LookupKeepsChildren | src/Laminar.Avalonia.ToolbarPanel/ToolbarDock.cs:110-134 | The returned child is a layer. A found layer has the level sought and the children are unchanged. A created layer is the new layer, and removing it gives back the original children in their order |
| ToolbarDocks.RepeatedLookupCreatesAgain | src/Laminar.Avalonia.ToolbarPanel/ToolbarDock.cs:117-132 | For any nonzero level, a second lookup after a creating lookup does not find the new layer and creates another one |
| ToolbarDocks.FindLayerAtLevelCorrected | src/Laminar.Avalonia.ToolbarPanel/ToolbarDock.cs:122-127 | With the new layer inserted at p's child position, it sits after every child scanned before p and directly in front of the greater layer |
| ToolbarDocks.InsertionIndexSkipsOtherChildren | src/Laminar.Avalonia.ToolbarPanel/ToolbarDock.cs:110-127 | For children (control, layer 1, layer 5) and level 3, the lookup as written inserts the new layer in front of the level-1 layer; the corrected lookup inserts it after that layer |

## Left out

- Strategies: the bodies of `SqueezeExpand`, `Cascade` and `ChangeStackSize`, and `RunMethods`, are not part of this model. The runner is a parameter of `Execute`.
- Views: `ListSlice` and its constructors are not part of this model. A view is described by the positions it visits. The model assumes it can be created for a start of -1 to n-1 backwards and 0 to n forwards, and fails otherwise.
- Amount transformation: the `ResizeAmountTransformation` formula is not part of this model. The transformation is a parameter, and nothing is assumed of it.
- Resize.Execute: it does not promise the magnitude bound, the minimum floor or conservation of the whole sample. Each depends on strategy bodies this model does not have. `ResizeAccounting.ExecuteNetChange` states conservation relative to the runner's own accounting. The runner is a total function, so the model does not cover a strategy that throws, for instance `TryResize` below a negative minimum. In the code such an exception passes out of `Execute` (Resize.cs:36-42): the second pipeline never runs, and the first side's writes remain. `Execute` therefore succeeds whenever its table reads and views succeed.
- Resize record: `IndexOffset` is carried in the record but not read by `Execute`.
- Resize.AccessibleArrowSurvivesOverride: no modelled code calls `IsAccessible`; the widget receives the check from outside (ResizeWidget.cs:43). The lemma assumes that its `indexInParent` and `totalChildren` are `Execute`'s handle index and element count. Under that reading ArrowBefore is refused at handle 0, although the before side there holds element 0.
- Rounding: IEEE-754 rounding, NaN and infinities are not modelled, because sizes and rectangles are reals.
- Directions.OrientateRectToDirection: requires nonzero bounds. Dividing by a zero extent yields infinities or NaN, which reals cannot represent.
- Enum values: an undeclared value of `ResizerMode`, `ResizeMethod`, `Dock` or `Orientation` cannot be represented. For directions, raw values are modelled where the source inspects them: `FindInvalidDirection`, `OrientationRaw` and `OrientateRaw`, with corrected versions of the search and of `OrientateRaw`. A single undeclared value is never RightToLeft, so `OrientationRaw` names it whichever search is used. Two arms are unreachable for declared values: the dock constructor's default arm and the `NotImplementedException` arm of `ConvertDockToPanelCoords`.
- Exceptions: those thrown by the modelled code are each modelled as a `Failure` value or an `Attempt.Threw` outcome; those thrown inside the strategies are not modelled (see `Resize.Execute` above). Messages and exception types are not modelled.
- `AddToolbar` and `RemoveToolbar`: both look the layer up with `FindLayerAtLevel` (ToolbarDock.cs:85 and 90), so each call with a nonzero level inserts a new empty layer into the dock, as `ToolbarDocks.RepeatedLookupCreatesAgain` states. `RemoveToolbar` therefore removes the toolbar from that new empty layer and never from the layer it was added to. What happens to a layer's own children after the lookup is not modelled, because layer contents are not part of this model.
- Also left out, as layout and presentation: `ArrangeOverride`, `GetOrCreateResizer`, attached-property storage, the resize widget's mouse input handling and pseudo-classes, toolbar floating and dragging, the weighted layer arrangement, and the orientation converter.
- Concurrency: the engine is single-threaded, so there is nothing to model.
- Facts about the code that the model follows:
  - `Execute` reads the prefix table and applies the transformation before it checks for mode `None` (Resize.cs:7-15), so a bad index fails even for an inert handle.
  - The prefix table is built by code outside the modelled files. `Execute` reads entry `index` as the space before handle `index`, whose before view includes element `index`, and reads the last entry as the total. `ResizeAccounting.PrefixTableOf` therefore takes entry k to be the total of elements 0 to k.
  - `TryResize` writes a clamped size below zero and then throws (IResizingHarness.cs:28-33); a negative minimum is not rejected up front.
- Dock orientation: the orientation the constructor records (ToolbarDock.cs:20-25) is stored in a private field that nothing reads. `ArrangeOverride` branches on the panel's own `Orientation` property (ToolbarDock.cs:31), which the constructor never sets. `ToolbarDocks.DockOrientation` models the recorded value only.
- Coordinate conversion: `ConvertDockToPanelCoords` is reached only from `ArrangeChild` (ToolbarDock.cs:93-96), which nothing calls. The model states the conversion on its own terms.

## Findings

| source | as written | input that shows it | evidently intended | confidence | as-written member | corrected member |
|---|---|---|---|---|---|---|
| src/Laminar.Avalonia.ToolbarPanel/AdjustableStackPanel/Direction.cs:24 | The case label joins the four directions with a bitwise or, which is the single constant 3 (RightToLeft). Every other value is reported as invalid | Re-orienting from the undeclared value 7 to TopToBottom reports TopToBottom as the invalid direction | Report the first argument that is not one of the four declared directions | high, not executed | Directions.FindInvalidDirection and Directions.OrientateRaw (shown by Directions.FindInvalidDirectionBlamesValidDirection and Directions.OrientateRawBlamesTarget) | Directions.FindInvalidDirectionCorrected (used by Directions.OrientateRawCorrected) |
| src/Laminar.Avalonia.ToolbarPanel/ToolbarDock.cs:122-127 | The new layer is inserted into the children at an index that counts only layers | For children (control, layer 1, layer 5) and level 3, the new layer lands in front of the level-1 layer | Insert the new layer directly in front of the first layer of greater level | medium (needs a non-layer child in the dock), not executed | ToolbarDocks.FindLayerAtLevel (shown by ToolbarDocks.InsertionIndexSkipsOtherChildren) | ToolbarDocks.FindLayerAtLevelCorrected |

=== FILE: direction.dfy ===
/** Reading directions of a stack and the rotation of rectangles between them.

    The four directions, in declaration order, are successive quarter turns;
    re-orienting a rectangle from one direction to another rotates it, within
    its bounds, by the number of quarter turns between them. */
module Directions {
  import opened Wrappers
  import opened Geometry

  datatype Direction = TopToBottom | LeftToRight | BottomToTop | RightToLeft

  /** The enumeration's underlying value. */
  function Ordinal(d: Direction): (v: nat)
    ensures v < 4
  {
    match d
    case TopToBottom => 0
    case LeftToRight => 1
    case BottomToTop => 2
    case RightToLeft => 3
  }

  /** The direction with underlying value `v`, if any. */
  function FromOrdinal(v: int): (r: Option<Direction>)
    ensures r.Some? <==> 0 <= v < 4
    ensures r.Some? ==> Ordinal(r.value) == v
  {
    if v == 0 then Some(TopToBottom)
    else if v == 1 then Some(LeftToRight)
    else if v == 2 then Some(BottomToTop)
    else if v == 3 then Some(RightToLeft)
    else None
  }

  /** Whether a stack laid out in direction `d` runs vertically or horizontally. */
  function Orientation(d: Direction): (o: Geometry.Orientation)
    ensures o == Vertical <==> Ordinal(d) % 2 == 0
  {
    match d
    case TopToBottom => Vertical
    case LeftToRight => Horizontal
    case BottomToTop => Vertical
    case RightToLeft => Horizontal
  }

  /** Number of quarter turns from `from` to `to`. */
  function QuarterTurns(from: Direction, to: Direction): (k: nat)
    ensures k < 4
  {
    (Ordinal(to) - Ordinal(from)) % 4
  }

  /** Orientation alternates with each quarter turn: two directions share an
      orientation exactly when an even number of quarter turns separates them. */
  lemma OrientationAlternates(from: Direction, to: Direction)
    ensures Orientation(from) == Orientation(to) <==> QuarterTurns(from, to) % 2 == 0
  {
  }

  /** Which of the four rotation arms the (from, to) pair selects; the table
      lists all sixteen pairs, so the source's throwing arm is unreachable for
      declared directions, and the arm is the number of quarter turns. */
  function RotationArm(from: Direction, to: Direction): (k: nat)
    ensures k == QuarterTurns(from, to)
  {
    match (from, to)
    case (TopToBottom, TopToBottom) | (LeftToRight, LeftToRight) | (BottomToTop, BottomToTop) | (RightToLeft, RightToLeft) => 0
    case (TopToBottom, LeftToRight) | (LeftToRight, BottomToTop) | (BottomToTop, RightToLeft) | (RightToLeft, TopToBottom) => 1
    case (TopToBottom, BottomToTop) | (LeftToRight, RightToLeft) | (BottomToTop, TopToBottom) | (RightToLeft, LeftToRight) => 2
    case (TopToBottom, RightToLeft) | (LeftToRight, TopToBottom) | (BottomToTop, LeftToRight) | (RightToLeft, BottomToTop) => 3
  }

  /** Bounds usable as a scale: division by a zero extent is not modelled. */
  predicate ScalableBounds(bounds: Size)
  {
    bounds.width != 0.0 && bounds.height != 0.0
  }

  /** `rect / bounds`: the rectangle in units of the bounds. */
  function Normalise(r: Rect, bounds: Size): Rect
    requires ScalableBounds(bounds)
  {
    Rect(r.x / bounds.width, r.y / bounds.height, r.width / bounds.width, r.height / bounds.height)
  }

  /** `rect * bounds`: back from units of the bounds. */
  function Denormalise(r: Rect, bounds: Size): Rect
  {
    Rect(r.x * bounds.width, r.y * bounds.height, r.width * bounds.width, r.height * bounds.height)
  }

  lemma DenormaliseNormalise(r: Rect, bounds: Size)
    requires ScalableBounds(bounds)
    ensures Denormalise(Normalise(r, bounds), bounds) == r
  {
  }

  /** The rotation arms on a rectangle in units of its bounds. */
  function RotateUnit(k: nat, r: Rect): Rect
    requires k < 4
  {
    if k == 0 then r
    else if k == 1 then Rect(r.y, 1.0 - r.Right(), r.height, r.width)
    else if k == 2 then Rect(1.0 - r.Right(), 1.0 - r.Bottom(), r.width, r.height)
    else Rect(1.0 - r.Bottom(), r.x, r.height, r.width)
  }

  /** The arms are the powers of the one-quarter-turn arm. */
  lemma RotateUnitComposes(j: nat, k: nat, r: Rect)
    requires j < 4 && k < 4
    ensures RotateUnit(k, RotateUnit(j, r)) == RotateUnit((j + k) % 4, r)
  {
  }

  /** A point of the unit box turned `k` quarter turns about the box's centre
      `(1/2, 1/2)`, each turn taking the top edge to the left edge. */
  function TurnPoint(k: nat, px: real, py: real): (p: (real, real))
    requires k < 4
  {
    if k == 0 then (px, py)
    else if k == 1 then (py, 1.0 - px)
    else if k == 2 then (1.0 - px, 1.0 - py)
    else (1.0 - py, px)
  }

  /** Arm k is the rotation by k quarter turns about the centre of the unit
      box: a point lies in the rectangle exactly when its turned image lies in
      the turned rectangle. */
  lemma RotateUnitTurnsPoints(k: nat, r: Rect, px: real, py: real)
    requires k < 4 && r.width >= 0.0 && r.height >= 0.0
    ensures ContainsPoint(r, px, py) <==> ContainsPoint(RotateUnit(k, r), TurnPoint(k, px, py).0, TurnPoint(k, px, py).1)
  {
  }

  /** The turn is toward the target direction: the leading band of a
      top-to-bottom stack becomes the leading band of a left-to-right one. */
  lemma RotateLeadingBand(t: real)
    ensures RotateUnit(RotationArm(TopToBottom, LeftToRight), Rect(0.0, 0.0, 1.0, t)) == Rect(0.0, 0.0, t, 1.0)
    ensures RotateUnit(RotationArm(TopToBottom, RightToLeft), Rect(0.0, 0.0, 1.0, t)) == Rect(1.0 - t, 0.0, t, 1.0)
  {
  }

  /** Re-orients `rect`, lying within `bounds`, from direction `from` to `to`. */
  function OrientateRectToDirection(from: Direction, to: Direction, rect: Rect, bounds: Size): (r: Rect)
    requires ScalableBounds(bounds)
    ensures QuarterTurns(from, to) % 2 == 0 ==> r.width == rect.width && r.height == rect.height
    ensures QuarterTurns(from, to) % 2 == 1 ==>
              r.width / bounds.width == rect.height / bounds.height &&
              r.height / bounds.height == rect.width / bounds.width
  {
    var n := Normalise(rect, bounds);
    var u := RotateUnit(RotationArm(from, to), n);
    RotateUnitExtents(RotationArm(from, to), n);
    if RotationArm(from, to) % 2 == 0 then
      EvenTurnExtents(u, rect, bounds);
      Denormalise(u, bounds)
    else
      OddTurnExtents(u, rect, bounds);
      Denormalise(u, bounds)
  }

  /** Even arms keep a rectangle's extents and odd arms exchange them. */
  lemma RotateUnitExtents(k: nat, r: Rect)
    requires k < 4
    ensures k % 2 == 0 ==> RotateUnit(k, r).width == r.width && RotateUnit(k, r).height == r.height
    ensures k % 2 == 1 ==> RotateUnit(k, r).width == r.height && RotateUnit(k, r).height == r.width
  {
  }

  /** Scaling by a nonzero factor and back, in either order, is the identity. */
  lemma ScaleCancels(a: real, b: real)
    requires b != 0.0
    ensures (a * b) / b == a && (a / b) * b == a
  {
  }

  /** Unit extents that are the rectangle's own come back as its extents. */
  lemma EvenTurnExtents(u: Rect, rect: Rect, bounds: Size)
    requires ScalableBounds(bounds)
    requires u.width == rect.width / bounds.width && u.height == rect.height / bounds.height
    ensures Denormalise(u, bounds).width == rect.width && Denormalise(u, bounds).height == rect.height
  {
    ScaleCancels(rect.width, bounds.width);
    ScaleCancels(rect.height, bounds.height);
  }

  /** Unit extents that are the rectangle's exchanged come back exchanged,
      relative to the bounds. */
  lemma OddTurnExtents(u: Rect, rect: Rect, bounds: Size)
    requires ScalableBounds(bounds)
    requires u.width == rect.height / bounds.height && u.height == rect.width / bounds.width
    ensures Denormalise(u, bounds).width / bounds.width == rect.height / bounds.height
    ensures Denormalise(u, bounds).height / bounds.height == rect.width / bounds.width
  {
    ScaleCancels(u.width, bounds.width);
    ScaleCancels(u.height, bounds.height);
  }

  /** Re-orienting to the same direction leaves the rectangle unchanged. */
  lemma OrientateSameDirection(d: Direction, rect: Rect, bounds: Size)
    requires ScalableBounds(bounds)
    ensures OrientateRectToDirection(d, d, rect, bounds) == rect
  {
    DenormaliseNormalise(rect, bounds);
  }

  /** Re-orienting from a to b and then from b to c is re-orienting from a to c. */
  lemma OrientateCompose(a: Direction, b: Direction, c: Direction, rect: Rect, bounds: Size)
    requires ScalableBounds(bounds)
    ensures OrientateRectToDirection(b, c, OrientateRectToDirection(a, b, rect, bounds), bounds)
         == OrientateRectToDirection(a, c, rect, bounds)
  {
    var u := Normalise(rect, bounds);
    var v := RotateUnit(RotationArm(a, b), u);
    NormaliseDenormalise(v, bounds);
    RotateUnitComposes(RotationArm(a, b), RotationArm(b, c), u);
    ArmsAdd(a, b, c);
  }

  lemma NormaliseDenormalise(r: Rect, bounds: Size)
    requires ScalableBounds(bounds)
    ensures Normalise(Denormalise(r, bounds), bounds) == r
  {
  }

  /** Quarter turns add up modulo four. */
  lemma ArmsAdd(a: Direction, b: Direction, c: Direction)
    ensures (RotationArm(a, b) + RotationArm(b, c)) % 4 == RotationArm(a, c)
  {
  }

  /** Re-orienting back undoes a re-orientation. */
  lemma OrientateInverse(a: Direction, b: Direction, rect: Rect, bounds: Size)
    requires ScalableBounds(bounds)
    ensures OrientateRectToDirection(b, a, OrientateRectToDirection(a, b, rect, bounds), bounds) == rect
  {
    OrientateCompose(a, b, a, rect, bounds);
    OrientateSameDirection(a, rect, bounds);
  }

  /** A quarter turn exchanges the rectangle's extents relative to the bounds;
      a half turn keeps them. */
  lemma OrientateExtents(from: Direction, to: Direction, rect: Rect, bounds: Size)
    requires ScalableBounds(bounds)
    ensures var r := OrientateRectToDirection(from, to, rect, bounds);
            if QuarterTurns(from, to) % 2 == 0 then
              r.width == rect.width && r.height == rect.height
            else
              r.width / bounds.width == rect.height / bounds.height &&
              r.height / bounds.height == rect.width / bounds.width
  {
  }

  /** A rectangle inside the unit box stays inside it under every arm. */
  lemma RotateUnitStaysInside(k: nat, r: Rect)
    requires k < 4 && InsideBox(r, 1.0, 1.0)
    ensures InsideBox(RotateUnit(k, r), 1.0, 1.0)
  {
  }

  /** A rectangle inside its (positive) bounds stays inside them when
      re-oriented. */
  lemma OrientateStaysInside(from: Direction, to: Direction, rect: Rect, bounds: Size)
    requires bounds.width > 0.0 && bounds.height > 0.0
    requires InsideBox(rect, bounds.width, bounds.height)
    ensures InsideBox(OrientateRectToDirection(from, to, rect, bounds), bounds.width, bounds.height)
  {
    var u := Normalise(rect, bounds);
    NormaliseInside(rect, bounds);
    RotateUnitStaysInside(RotationArm(from, to), u);
    DenormaliseInside(RotateUnit(RotationArm(from, to), u), bounds);
  }

  lemma NormaliseInside(r: Rect, bounds: Size)
    requires bounds.width > 0.0 && bounds.height > 0.0
    requires InsideBox(r, bounds.width, bounds.height)
    ensures InsideBox(Normalise(r, bounds), 1.0, 1.0)
  {
    DivideWithin(r.x, r.width, bounds.width);
    DivideWithin(r.y, r.height, bounds.height);
  }

  lemma DenormaliseInside(r: Rect, bounds: Size)
    requires bounds.width > 0.0 && bounds.height > 0.0
    requires InsideBox(r, 1.0, 1.0)
    ensures InsideBox(Denormalise(r, bounds), bounds.width, bounds.height)
  {
    var d := Denormalise(r, bounds);
    MultiplyWithin(r.x, r.width, bounds.width, d.x, d.width);
    MultiplyWithin(r.y, r.height, bounds.height, d.y, d.height);
  }

  lemma DivideWithin(p: real, extent: real, bound: real)
    requires bound > 0.0 && 0.0 <= p && 0.0 <= extent && p + extent <= bound
    ensures 0.0 <= p / bound && 0.0 <= extent / bound && p / bound + extent / bound <= 1.0
  {
    assert p / bound + extent / bound == (p + extent) / bound;
  }

  lemma MultiplyWithin(p: real, extent: real, bound: real, p': real, extent': real)
    requires bound > 0.0 && 0.0 <= p && 0.0 <= extent && p + extent <= 1.0
    requires p' == p * bound && extent' == extent * bound
    ensures 0.0 <= p' && 0.0 <= extent' && p' + extent' <= bound
  {
    assert p * bound + extent * bound == (p + extent) * bound;
    assert bound - (p + extent) * bound == (1.0 - (p + extent)) * bound;
  }

  /** The value of the case label `TopToBottom | LeftToRight | BottomToTop |
      RightToLeft`: the bitwise or of 0, 1, 2 and 3. */
  const CaseLabel: int := (0 as bv8 | 1 as bv8 | 2 as bv8 | 3 as bv8) as int

  /** The label is a single constant, the value of `RightToLeft`. */
  lemma CaseLabelIsRightToLeft()
    ensures CaseLabel == Ordinal(RightToLeft)
  {
  }

  /** `FindInvalidDirection` as written: the case label `TopToBottom |
      LeftToRight | BottomToTop | RightToLeft` is a bitwise or, the single
      constant 3, so the first value other than `RightToLeft` is reported. */
  function FindInvalidDirection(directions: seq<int>): (r: Option<int>)
    ensures r.None? <==> forall j :: 0 <= j < |directions| ==> directions[j] == Ordinal(RightToLeft)
    ensures r.Some? ==> r.value in directions && r.value != Ordinal(RightToLeft)
    ensures r.Some? ==> exists j :: 0 <= j < |directions| && directions[j] == r.value &&
                          forall i :: 0 <= i < j ==> directions[i] == Ordinal(RightToLeft)
  {
    if |directions| == 0 then None
    else if directions[0] != CaseLabel then Some(directions[0])
    else
      var rest := FindInvalidDirection(directions[1..]);
      assert rest.Some? ==> exists j :: 0 <= j < |directions| && directions[j] == rest.value &&
                              forall i :: 0 <= i < j ==> directions[i] == Ordinal(RightToLeft) by {
        if rest.Some? {
          var j :| 0 <= j < |directions[1..]| && directions[1..][j] == rest.value &&
                   forall i :: 0 <= i < j ==> directions[1..][i] == Ordinal(RightToLeft);
          assert directions[j + 1] == rest.value;
          assert forall i :: 0 <= i < j + 1 ==> directions[i] == Ordinal(RightToLeft) by {
            forall i | 0 <= i < j + 1 ensures directions[i] == Ordinal(RightToLeft) {
              if i > 0 { assert directions[i] == directions[1..][i - 1]; }
            }
          }
        }
      }
      rest
  }

  /** The first value that is not a declared direction, if any: what the
      check is evidently meant to find. */
  function FindInvalidDirectionCorrected(directions: seq<int>): (r: Option<int>)
    ensures r.None? <==> forall j :: 0 <= j < |directions| ==> FromOrdinal(directions[j]).Some?
    ensures r.Some? ==> r.value in directions && FromOrdinal(r.value).None?
    ensures r.Some? ==> exists j :: 0 <= j < |directions| && directions[j] == r.value &&
                          forall i :: 0 <= i < j ==> FromOrdinal(directions[i]).Some?
  {
    if |directions| == 0 then None
    else if FromOrdinal(directions[0]).None? then Some(directions[0])
    else
      var rest := FindInvalidDirectionCorrected(directions[1..]);
      assert rest.Some? ==> exists j :: 0 <= j < |directions| && directions[j] == rest.value &&
                              forall i :: 0 <= i < j ==> FromOrdinal(directions[i]).Some? by {
        if rest.Some? {
          var j :| 0 <= j < |directions[1..]| && directions[1..][j] == rest.value &&
                   forall i :: 0 <= i < j ==> FromOrdinal(directions[1..][i]).Some?;
          assert directions[j + 1] == rest.value;
          assert forall i :: 0 <= i < j + 1 ==> FromOrdinal(directions[i]).Some? by {
            forall i | 0 <= i < j + 1 ensures FromOrdinal(directions[i]).Some? {
              if i > 0 { assert directions[i] == directions[1..][i - 1]; }
            }
          }
        }
      }
      rest
  }

  /** As written, re-orienting from the undeclared value 7 to `TopToBottom`
      blames `TopToBottom`, a declared direction; the corrected search blames 7. */
  lemma FindInvalidDirectionBlamesValidDirection()
    ensures FindInvalidDirection([Ordinal(TopToBottom), 7]) == Some(Ordinal(TopToBottom))
    ensures FindInvalidDirectionCorrected([Ordinal(TopToBottom), 7]) == Some(7)
  {
  }

  /** `OrientateRectToDirection` on the enumeration's underlying values, as
      written: an undeclared value fails, and the exception names what the
      search as written finds, the first of `to`, `from` that is not
      `RightToLeft`, which can be a declared direction.  The failure does not
      depend on the bounds, which are only needed to succeed. */
  function OrientateRaw(from: int, to: int, rect: Rect, bounds: Size): (r: Result<Rect, int>)
    requires ScalableBounds(bounds) || FromOrdinal(from).None? || FromOrdinal(to).None?
    ensures r.Success? <==> FromOrdinal(from).Some? && FromOrdinal(to).Some?
    ensures r.Success? ==> r.value == OrientateRectToDirection(FromOrdinal(from).value, FromOrdinal(to).value, rect, bounds)
    ensures r.Failure? ==> r.error == (if to != Ordinal(RightToLeft) then to else from)
  {
    if FromOrdinal(from).Some? && FromOrdinal(to).Some? then
      Success(OrientateRectToDirection(FromOrdinal(from).value, FromOrdinal(to).value, rect, bounds))
    else
      var arguments := [to, from];
      assert arguments[0] != CaseLabel || arguments[1] != CaseLabel;
      var blamed := FindInvalidDirection(arguments);
      Failure(blamed.value)
  }

  /** `Orientation` on the enumeration's underlying values: an undeclared
      value throws, and the search as written, given that one value, names
      it. */
  function OrientationRaw(v: int): (r: Result<Geometry.Orientation, int>)
    ensures r.Success? <==> FromOrdinal(v).Some?
    ensures r.Success? ==> r.value == Orientation(FromOrdinal(v).value)
    ensures r.Failure? ==> r.error == v
  {
    if FromOrdinal(v).Some? then Success(Orientation(FromOrdinal(v).value))
    else
      assert [v][0] != CaseLabel;
      var blamed := FindInvalidDirection([v]);
      Failure(blamed.value)
  }

  /** `OrientateRaw` built on the corrected search: the exception names an
      undeclared argument, `to` first. */
  function OrientateRawCorrected(from: int, to: int, rect: Rect, bounds: Size): (r: Result<Rect, int>)
    requires ScalableBounds(bounds) || FromOrdinal(from).None? || FromOrdinal(to).None?
    ensures r.Success? <==> FromOrdinal(from).Some? && FromOrdinal(to).Some?
    ensures r.Success? ==> r.value == OrientateRectToDirection(FromOrdinal(from).value, FromOrdinal(to).value, rect, bounds)
    ensures r.Failure? ==> FromOrdinal(r.error).None? && r.error == (if FromOrdinal(to).None? then to else from)
  {
    if FromOrdinal(from).Some? && FromOrdinal(to).Some? then
      Success(OrientateRectToDirection(FromOrdinal(from).value, FromOrdinal(to).value, rect, bounds))
    else
      var arguments := [to, from];
      assert FromOrdinal(arguments[0]).None? || FromOrdinal(arguments[1]).None?;
      var blamed := FindInvalidDirectionCorrected(arguments);
      Failure(blamed.value)
  }

  /** Re-orienting from the undeclared value 7 to `TopToBottom` throws for
      `TopToBottom` as written, and for 7 when corrected. */
  lemma OrientateRawBlamesTarget(rect: Rect, bounds: Size)
    ensures OrientateRaw(7, Ordinal(TopToBottom), rect, bounds) == Failure(Ordinal(TopToBottom))
    ensures OrientateRawCorrected(7, Ordinal(TopToBottom), rect, bounds) == Failure(7)
  {
  }
}

=== FILE: geometry.dfy ===
/** The layout value types the core computes with.  Sizes and coordinates are
    IEEE doubles in the source; here they are reals, which is exact for the
    additions, subtractions, comparisons and scalings the core performs. */
module Geometry {

  /** Stacking orientation of a panel. */
  datatype Orientation = Horizontal | Vertical

  /** An axis-aligned rectangle: top-left corner and extent. */
  datatype Rect = Rect(x: real, y: real, width: real, height: real)
  {
    function Right(): real { x + width }
    function Bottom(): real { y + height }
  }

  /** A two-dimensional extent. */
  datatype Size = Size(width: real, height: real)

  /** True when the rectangle has a non-negative extent and lies within
      the box `[0, w] x [0, h]`. */
  predicate InsideBox(r: Rect, w: real, h: real)
  {
    0.0 <= r.width && 0.0 <= r.height &&
    0.0 <= r.x && r.Right() <= w && 0.0 <= r.y && r.Bottom() <= h
  }

  /** True when the point `(px, py)` lies in the closed rectangle. */
  predicate ContainsPoint(r: Rect, px: real, py: real)
  {
    r.x <= px <= r.Right() && r.y <= py <= r.Bottom()
  }

  /** Larger of two sizes, as `Math.Max` on non-NaN doubles. */
  function Max(a: real, b: real): (m: real)
    ensures m >= a && m >= b
    ensures m == a || m == b
  {
    if a >= b then a else b
  }
}

=== FILE: resize.dfy ===
/** One drag sample at one resize handle of an adjustable stack.

    The strategy runner (`RunMethods`) and the amount transformation are not
    part of this model: they are parameters, and the model states only what
    the orchestration does with them — which strategies each side gets, which
    elements each side sees, what each side is asked for and in which order. */
module Resize {
  import opened Wrappers
  import opened ResizingHarness
  import M = ResizerModes

  /** An ordered view of the stack: `Backwards(k)` walks positions k, k-1, ..., 0
      and `Forwards(f)` walks f, f+1, ..., n-1, both starting next to the handle. */
  datatype ListSlice = Backwards(last: int) | Forwards(first: int)

  /** Whether the view can be created over a stack of `count` elements. */
  predicate SliceFits(s: ListSlice, count: nat)
  {
    match s
    case Backwards(k) => -1 <= k <= count - 1
    case Forwards(f) => 0 <= f <= count
  }

  /** The positions `k` down to `0`. */
  function Countdown(k: int): (r: seq<nat>)
    requires k >= -1
    decreases k + 1
    ensures |r| == k + 1
    ensures forall j :: 0 <= j < |r| ==> r[j] == k - j
  {
    if k == -1 then [] else [k as nat] + Countdown(k - 1)
  }

  /** The positions `f` up to `count - 1`. */
  function Countup(f: nat, count: nat): (r: seq<nat>)
    requires f <= count
    decreases count - f
    ensures |r| == count - f
    ensures forall j :: 0 <= j < |r| ==> r[j] == f + j
  {
    if f == count then [] else [f] + Countup(f + 1, count)
  }

  /** The stack positions a view visits, in visiting order. */
  function Positions(s: ListSlice, count: nat): seq<nat>
    requires SliceFits(s, count)
  {
    match s
    case Backwards(k) => Countdown(k)
    case Forwards(f) => Countup(f, count)
  }

  /** The two views around handle `index` split the stack: each walks outward
      from the handle, neither visits a position twice, they share none, and
      together they visit every position. */
  lemma {:induction false} SidesPartitionStack(index: int, count: nat)
    requires -1 <= index <= count - 1
    ensures var before := Positions(Backwards(index), count);
            var after := Positions(Forwards(index + 1), count);
            && |before| + |after| == count
            && (forall j :: 0 <= j < |before| ==> before[j] == index - j)
            && (forall j :: 0 <= j < |after| ==> after[j] == index + 1 + j)
            && (forall p :: p in before ==> p !in after)
            && (forall p :: 0 <= p < count ==> p in before || p in after)
  {
    var before := Positions(Backwards(index), count);
    var after := Positions(Forwards(index + 1), count);
    forall p | 0 <= p < count
      ensures p in before || p in after
    {
      if p <= index {
        assert before[index - p] == p;
      } else {
        assert after[p - index - 1] == p;
      }
    }
  }

  /** `RunMethods`: runs a strategy pipeline over a view with a requested change,
      the space on that side of the handle and the slack outside the stack,
      giving the new accessor state and the change achieved. */
  datatype RunResult = RunResult(harness: Harness, achieved: real)
  type Runner = (seq<M.ResizeMethod>, ListSlice, Harness, real, real, real) -> RunResult

  /** `ResizeAmountTransformation`: (drag amount, space before the active
      handle, space before this handle, total size) to this handle's amount. */
  type AmountTransformation = (real, real, real, real) -> real

  /** A handle's resize record; the index offset is not read by `Execute`. */
  datatype ResizeRecord = ResizeRecord(indexOffset: int, transformation: AmountTransformation, mode: M.ResizerMode)

  /** One call of the runner, as recorded by `Execute`. */
  datatype Call = Call(methods: seq<M.ResizeMethod>, slice: ListSlice, input: Harness,
                       requested: real, space: real, slack: real, output: Harness, achieved: real)

  /** The call really is what the runner answers to those arguments. */
  predicate Answered(run: Runner, c: Call)
  {
    run(c.methods, c.slice, c.input, c.requested, c.space, c.slack) == RunResult(c.output, c.achieved)
  }

  function Invoke(run: Runner, methods: seq<M.ResizeMethod>, slice: ListSlice, h: Harness,
                  requested: real, space: real, slack: real): (c: Call)
    ensures Answered(run, c)
    ensures c.methods == methods && c.slice == slice && c.input == h
    ensures c.requested == requested && c.space == space && c.slack == slack
  {
    var res := run(methods, slice, h, requested, space, slack);
    Call(methods, slice, h, requested, space, slack, res.harness, res.achieved)
  }

  /** The result of one sample: the final accessor state, the change returned
      to the caller and the runner calls made, in order. */
  datatype Execution = Execution(harness: Harness, achieved: real, calls: seq<Call>)

  datatype ExecuteError =
    | PrefixIndexOutOfRange   // a read of the prefix-size table outside its bounds
    | SliceOutOfRange         // a view that cannot be created over the stack

  function Last(prefix: seq<real>): real
    requires |prefix| >= 1
  {
    prefix[|prefix| - 1]
  }

  /** The prefix-size table reads `Execute` makes before anything else. */
  predicate PrefixReadable(prefix: seq<real>, index: int, activeIndex: int)
  {
    |prefix| >= 1 && index < |prefix| && activeIndex < |prefix|
  }

  /** The space occupied before a handle, from the prefix-size table. */
  function SpaceBefore(prefix: seq<real>, index: int): real
    requires index < |prefix|
  {
    if index < 0 then 0.0 else prefix[index]
  }

  /** The space before and after a handle split the stack's total size, the
      leading boundary having nothing before it. */
  function SpaceAfter(prefix: seq<real>, index: int): (after: real)
    requires |prefix| >= 1 && index < |prefix|
    ensures SpaceBefore(prefix, index) + after == Last(prefix)
    ensures index == -1 ==> after == Last(prefix)
  {
    Last(prefix) - SpaceBefore(prefix, index)
  }

  /** The change this handle is asked to make. */
  function Amount(resize: ResizeRecord, resizeAmount: real, prefix: seq<real>, index: int, activeIndex: int): real
    requires PrefixReadable(prefix, index, activeIndex)
  {
    resize.transformation(resizeAmount, SpaceBefore(prefix, activeIndex),
                          SpaceBefore(prefix, index), Last(prefix))
  }

  /** The mode's strategies with the stack boundaries overridden: a side that
      faces outside the stack changes the stack size instead. */
  function ResolveMethods(mode: M.ResizerMode, index: int, count: nat): (r: M.MethodPair)
    ensures r.NoMethods? <==> mode == M.None
    ensures index == count - 1 && r.Methods? ==> r.after == M.ChangeStackSize
    ensures index == -1 && r.Methods? ==> r.before == M.ChangeStackSize
    ensures index != count - 1 && r.Methods? ==> r.after == M.GetResizeMethods(mode).after
    ensures index != -1 && r.Methods? ==> r.before == M.GetResizeMethods(mode).before
  {
    match M.GetResizeMethods(mode)
    case NoMethods => M.NoMethods
    case Methods(before, after) =>
      var after' := if index == count - 1 then M.ChangeStackSize else after;
      var before' := if index == -1 then M.ChangeStackSize else before;
      M.Methods(before', after')
  }

  /** A handle offering an arrow mode, as allowed by the accessibility rule,
      keeps that arrow's squeeze on its side: the boundary override never
      replaces it.  The rule's position and child count are read as the
      handle index and the element count, an assumption: the rule is
      supplied to the widget from outside. */
  lemma AccessibleArrowSurvivesOverride(mode: M.ResizerMode, index: int, count: nat, flags: M.ResizeFlags)
    requires mode == M.ArrowBefore || mode == M.ArrowAfter
    requires M.IsAccessible(mode, index, count, flags)
    ensures mode == M.ArrowBefore ==> ResolveMethods(mode, index, count).before == M.SqueezeExpand
    ensures mode == M.ArrowAfter ==> ResolveMethods(mode, index, count).after == M.SqueezeExpand
  {
  }

  /** A side's pipeline: the side's strategy, preceded by a change of the
      stack size when the side may consume space outside the stack. */
  function Pipeline(canConsumeSpace: bool, strategy: M.ResizeMethod): (r: seq<M.ResizeMethod>)
    ensures |r| == (if canConsumeSpace then 2 else 1)
    ensures r[|r| - 1] == strategy
    ensures canConsumeSpace ==> r[0] == M.ChangeStackSize
  {
    if canConsumeSpace then [M.ChangeStackSize, strategy] else [strategy]
  }

  /** One side of the handle as the runner sees it: its pipeline, its view
      of the stack and the space it occupies. */
  datatype Side = Side(methods: seq<M.ResizeMethod>, slice: ListSlice, space: real)

  /** The call was made for `side`, with the slack passed through unchanged. */
  predicate UsesSide(c: Call, side: Side, slack: real)
  {
    c.methods == side.methods && c.slice == side.slice && c.space == side.space && c.slack == slack
  }

  /** The side before handle `index`. */
  function BeforeSide(methods: M.MethodPair, flags: M.ResizeFlags, index: int, prefix: seq<real>): Side
    requires methods.Methods? && index < |prefix|
  {
    Side(Pipeline(flags.canConsumeSpaceBeforeStack, methods.before), Backwards(index), SpaceBefore(prefix, index))
  }

  /** The side after handle `index`. */
  function AfterSide(methods: M.MethodPair, flags: M.ResizeFlags, index: int, prefix: seq<real>): Side
    requires methods.Methods? && |prefix| >= 1 && index < |prefix|
  {
    Side(Pipeline(flags.canConsumeSpaceAfterStack, methods.after), Forwards(index + 1), SpaceAfter(prefix, index))
  }

  /** The two-phase step: the side that must shrink runs first, and the side
      that grows is then asked for exactly the space the first side freed; the
      growing side's achievement is the result.  A zero amount runs nothing. */
  function ShrinkThenGrow(run: Runner, amount: real, before: Side, after: Side, h: Harness, slack: real): (e: Execution)
    ensures forall k :: 0 <= k < |e.calls| ==> Answered(run, e.calls[k])
    ensures |e.calls| == 0 <==> amount == 0.0
    ensures |e.calls| == 0 ==> e.harness == h && e.achieved == 0.0
    ensures |e.calls| == 0 || |e.calls| == 2
    ensures |e.calls| == 2 ==>
      && e.calls[0].input == h
      && e.calls[1].input == e.calls[0].output
      && e.calls[1].requested == -e.calls[0].achieved
      && e.harness == e.calls[1].output
      && e.achieved == e.calls[1].achieved
    ensures amount > 0.0 ==>
      UsesSide(e.calls[0], after, slack) && e.calls[0].requested == -amount && UsesSide(e.calls[1], before, slack)
    ensures amount < 0.0 ==>
      UsesSide(e.calls[0], before, slack) && e.calls[0].requested == amount && UsesSide(e.calls[1], after, slack)
  {
    if amount > 0.0 then
      var shrink := Invoke(run, after.methods, after.slice, h, -amount, after.space, slack);
      var successfulResizeAmount := -shrink.achieved;
      var grow := Invoke(run, before.methods, before.slice, shrink.output, successfulResizeAmount, before.space, slack);
      Execution(grow.output, grow.achieved, [shrink, grow])
    else if amount < 0.0 then
      var shrink := Invoke(run, before.methods, before.slice, h, amount, before.space, slack);
      var successfulResizeAmount := shrink.achieved;
      var grow := Invoke(run, after.methods, after.slice, shrink.output, -successfulResizeAmount, after.space, slack);
      Execution(grow.output, grow.achieved, [shrink, grow])
    else
      Execution(h, 0.0, [])
  }

  /** Whether `Execute` runs to completion on these arguments. */
  predicate ExecuteDefined(mode: M.ResizerMode, count: nat, prefix: seq<real>, index: int, activeIndex: int)
  {
    PrefixReadable(prefix, index, activeIndex) &&
    (mode == M.None || -1 <= index <= count - 1)
  }

  /** Handles one drag sample at handle `index` of the stack held by `h`: an
      inert handle changes nothing; otherwise the sides get the mode's
      strategies with the boundary overrides, each behind a stack-size change
      when its flag allows, and the two-phase step runs on the transformed
      amount. */
  function Execute(resize: ResizeRecord, h: Harness, resizeAmount: real, spaceToExpandInto: real,
                   index: int, activeIndex: int, prefix: seq<real>, flags: M.ResizeFlags,
                   run: Runner): (r: Result<Execution, ExecuteError>)
    ensures r.Success? <==> ExecuteDefined(resize.mode, |h.sizes|, prefix, index, activeIndex)
    ensures r.Failure? && !PrefixReadable(prefix, index, activeIndex) ==> r.error == PrefixIndexOutOfRange
    ensures r.Failure? && PrefixReadable(prefix, index, activeIndex) ==> r.error == SliceOutOfRange
    ensures r.Success? && resize.mode == M.None ==> r.value == Execution(h, 0.0, [])
    ensures r.Success? && resize.mode != M.None ==>
      var methods := ResolveMethods(resize.mode, index, |h.sizes|);
      r.value == ShrinkThenGrow(run, Amount(resize, resizeAmount, prefix, index, activeIndex),
                                BeforeSide(methods, flags, index, prefix), AfterSide(methods, flags, index, prefix),
                                h, spaceToExpandInto)
  {
    if !PrefixReadable(prefix, index, activeIndex) then Failure(PrefixIndexOutOfRange)
    else
      var spaceBeforeResizer := SpaceBefore(prefix, index);
      var spaceAfterResizer := Last(prefix) - spaceBeforeResizer;
      var currentResizeAmount := resize.transformation(
        resizeAmount, if activeIndex < 0 then 0.0 else prefix[activeIndex], spaceBeforeResizer, Last(prefix));
      match M.GetResizeMethods(resize.mode)
      case NoMethods => Success(Execution(h, 0.0, []))
      case Methods(methodBefore, methodAfter) =>
        var methodAfter' := if index == |h.sizes| - 1 then M.ChangeStackSize else methodAfter;
        var methodBefore' := if index == -1 then M.ChangeStackSize else methodBefore;
        var methodsAfter := if flags.canConsumeSpaceAfterStack then [M.ChangeStackSize, methodAfter'] else [methodAfter'];
        var methodsBefore := if flags.canConsumeSpaceBeforeStack then [M.ChangeStackSize, methodBefore'] else [methodBefore'];
        var before := Backwards(index);
        var after := Forwards(index + 1);
        if !SliceFits(before, |h.sizes|) || !SliceFits(after, |h.sizes|) then Failure(SliceOutOfRange)
        else
          Success(ShrinkThenGrow(run, currentResizeAmount, Side(methodsBefore, before, spaceBeforeResizer),
                                 Side(methodsAfter, after, spaceAfterResizer), h, spaceToExpandInto))
  }
}

/** Size accounting of one resize sample. */
module ResizeAccounting {
  import opened Wrappers
  import opened ResizingHarness
  import opened Resize
  import M = ResizerModes

  /** Total size of a sequence of sizes. */
  function Sum(s: seq<real>): real
  {
    if |s| == 0 then 0.0 else Sum(s[..|s| - 1]) + s[|s| - 1]
  }

  /** Splitting a sequence anywhere splits its total. */
  lemma {:induction false} SumSplit(s: seq<real>, m: nat)
    requires m <= |s|
    ensures Sum(s[..m]) + Sum(s[m..]) == Sum(s)
    decreases |s|
  {
    if m == |s| {
      assert s[..m] == s;
      assert s[m..] == [];
    } else {
      var t := s[..|s| - 1];
      SumSplit(t, m);
      assert t[..m] == s[..m];
      assert t[m..] == s[m..][..|s[m..]| - 1];
    }
  }

  /** The total of a non-empty sequence is its first element plus the rest. */
  lemma {:induction false} SumFront(s: seq<real>)
    requires |s| >= 1
    ensures Sum(s) == s[0] + Sum(s[1..])
  {
    SumSplit(s, 1);
    assert s[..1][..0] == [];
  }

  /** The sizes at the positions `ps`, added up in visiting order. */
  function SumAt(sizes: seq<real>, ps: seq<nat>): real
    requires forall j :: 0 <= j < |ps| ==> ps[j] < |sizes|
  {
    if |ps| == 0 then 0.0 else sizes[ps[0]] + SumAt(sizes, ps[1..])
  }

  /** `prefix` is the prefix-size table of `sizes`: entry k is the total size
      of elements 0 to k, so the last entry is the stack's total size. */
  predicate PrefixTableOf(prefix: seq<real>, sizes: seq<real>)
  {
    |prefix| == |sizes| && forall k :: 0 <= k < |prefix| ==> prefix[k] == Sum(sizes[..k + 1])
  }

  /** Walking backwards from element `k` visits elements 0 to k. */
  lemma {:induction false} SumAtCountdown(sizes: seq<real>, k: int)
    requires -1 <= k < |sizes|
    ensures SumAt(sizes, Countdown(k)) == Sum(sizes[..k + 1])
    decreases k + 1
  {
    if k >= 0 {
      SumAtCountdown(sizes, k - 1);
      assert Countdown(k)[1..] == Countdown(k - 1);
      assert sizes[..k + 1][..k] == sizes[..k];
    }
  }

  /** Walking forwards from element `f` visits elements f to the end. */
  lemma {:induction false} SumAtCountup(sizes: seq<real>, f: nat)
    requires f <= |sizes|
    ensures SumAt(sizes, Countup(f, |sizes|)) == Sum(sizes[f..])
    decreases |sizes| - f
  {
    if f == |sizes| {
      assert sizes[f..] == [];
    } else {
      SumAtCountup(sizes, f + 1);
      assert Countup(f, |sizes|)[1..] == Countup(f + 1, |sizes|);
      SumFront(sizes[f..]);
      assert sizes[f..][1..] == sizes[f + 1..];
    }
  }

  /** Read from a prefix-size table, the space before a handle is the total
      size of the elements its before view walks, and the space after it the
      total of the elements its after view walks. */
  lemma {:induction false} SpacesAreViewSums(prefix: seq<real>, sizes: seq<real>, index: int)
    requires PrefixTableOf(prefix, sizes) && |prefix| >= 1
    requires -1 <= index < |prefix|
    ensures SpaceBefore(prefix, index) == Sum(sizes[..index + 1])
    ensures SpaceBefore(prefix, index) == SumAt(sizes, Positions(Backwards(index), |sizes|))
    ensures SpaceAfter(prefix, index) == Sum(sizes[index + 1..])
    ensures SpaceAfter(prefix, index) == SumAt(sizes, Positions(Forwards(index + 1), |sizes|))
  {
    if index == -1 {
      assert sizes[..0] == [];
    }
    assert sizes[..|sizes|] == sizes;
    SumSplit(sizes, index + 1);
    SumAtCountdown(sizes, index);
    SumAtCountup(sizes, index + 1);
  }

  /** The call changed the total size of the stack by exactly what it
      reports as achieved. */
  predicate Accounted(c: Call)
  {
    Sum(c.output.sizes) == Sum(c.input.sizes) + c.achieved
  }

  /** When every runner call accounts for its change, the stack's total size
      moves only by what the growing side fell short of the space freed: a
      sample that grows by everything freed leaves the total unchanged, and an
      inert sample changes nothing. */
  lemma ExecuteNetChange(resize: ResizeRecord, h: Harness, resizeAmount: real, spaceToExpandInto: real,
                         index: int, activeIndex: int, prefix: seq<real>, flags: M.ResizeFlags,
                         run: Runner, e: Execution)
    requires Execute(resize, h, resizeAmount, spaceToExpandInto, index, activeIndex, prefix, flags, run) == Success(e)
    requires forall k :: 0 <= k < |e.calls| ==> Accounted(e.calls[k])
    ensures |e.calls| == 0 ==> Sum(e.harness.sizes) == Sum(h.sizes)
    ensures |e.calls| == 2 ==> Sum(e.harness.sizes) == Sum(h.sizes) + (e.achieved - e.calls[1].requested)
    ensures |e.calls| == 2 && e.achieved == e.calls[1].requested ==> Sum(e.harness.sizes) == Sum(h.sizes)
  {
    if |e.calls| == 2 {
      assert Accounted(e.calls[0]) && Accounted(e.calls[1]);
    }
  }
}

=== FILE: resizer_modes.dfy ===
/** The boundary policy of an adjustable stack: which resize strategy each side
    of a resize handle uses under each handle mode, and which modes a handle
    may offer at a given position. */
module ResizerModes {

  /** The three size-change strategies a pipeline is built from. */
  datatype ResizeMethod = SqueezeExpand | Cascade | ChangeStackSize

  /** The two independent capability flags of a stack. */
  datatype ResizeFlags = ResizeFlags(canConsumeSpaceBeforeStack: bool, canConsumeSpaceAfterStack: bool)

  /** The mode a resize handle is in, in declaration order. */
  datatype ResizerMode = None | ArrowBefore | Default | ArrowAfter

  /** The strategies for the two sides of a handle, or none for an inert handle
      (the source's nullable tuple). */
  datatype MethodPair = NoMethods | Methods(before: ResizeMethod, after: ResizeMethod)

  /** Every value of the mode enumeration, in declaration order. */
  const DeclaredModes: seq<ResizerMode> := [None, ArrowBefore, Default, ArrowAfter]

  /** The elements of `modes` other than `None`, order kept. */
  function WithoutNone(modes: seq<ResizerMode>): (r: seq<ResizerMode>)
    ensures forall m :: m in r <==> m in modes && m != None
    ensures |r| <= |modes|
  {
    if |modes| == 0 then []
    else if modes[0] == None then WithoutNone(modes[1..])
    else [modes[0]] + WithoutNone(modes[1..])
  }

  /** The selectable modes: the declared values without `None`. */
  function AllModes(): (r: seq<ResizerMode>)
    ensures r == [ArrowBefore, Default, ArrowAfter]
    ensures forall m :: m in r <==> m != None
  {
    WithoutNone(DeclaredModes)
  }

  /** The nominal (before, after) strategies of a mode. */
  function GetResizeMethods(mode: ResizerMode): (r: MethodPair)
    ensures r.Methods? <==> mode in AllModes()
    ensures r.Methods? ==> r.before != ChangeStackSize && r.after != ChangeStackSize
    ensures r.Methods? ==> (r.before == SqueezeExpand <==> mode == ArrowBefore)
    ensures r.Methods? ==> (r.after == SqueezeExpand <==> mode == ArrowAfter)
  {
    match mode
    case ArrowBefore => Methods(SqueezeExpand, Cascade)
    case Default => Methods(Cascade, Cascade)
    case ArrowAfter => Methods(Cascade, SqueezeExpand)
    case None => NoMethods
  }

  /** The mode with its arrow pointing the other way. */
  function Mirror(mode: ResizerMode): ResizerMode
  {
    match mode
    case ArrowBefore => ArrowAfter
    case ArrowAfter => ArrowBefore
    case _ => mode
  }

  /** A method pair with its two sides exchanged. */
  function Swap(p: MethodPair): MethodPair
  {
    match p
    case NoMethods => NoMethods
    case Methods(b, a) => Methods(a, b)
  }

  /** Mirroring a mode mirrors its strategies: the table is symmetric under
      exchanging the two sides of the handle. */
  lemma MirrorSwapsMethods(mode: ResizerMode)
    ensures GetResizeMethods(Mirror(mode)) == Swap(GetResizeMethods(mode))
    ensures Mirror(Mirror(mode)) == mode
  {
  }

  /** Whether a handle at `indexInParent` in a stack of `totalChildren`
      may offer `mode` under `flags`. */
  function IsAccessible(mode: ResizerMode, indexInParent: int, totalChildren: int, flags: ResizeFlags): (r: bool)
    ensures r ==> mode in AllModes()
    ensures mode == Default ==> r
    ensures mode == ArrowBefore ==> (r <==> indexInParent >= 1)
    ensures mode == ArrowAfter && indexInParent == totalChildren - 1 ==> !r
    ensures mode == ArrowAfter && indexInParent == totalChildren - 2 ==> (r <==> !flags.canConsumeSpaceAfterStack)
    ensures mode == ArrowAfter && (indexInParent < totalChildren - 2 || indexInParent > totalChildren - 1) ==> r
  {
    match mode
    case Default => true
    case ArrowBefore => indexInParent >= 1
    case ArrowAfter =>
      indexInParent != totalChildren - 1 &&
      !(flags.canConsumeSpaceAfterStack && indexInParent == totalChildren - 2)
    case None => false
  }

  /** Only the arrow-after rule reads the flags. */
  lemma AccessibilityFlagIndependence(mode: ResizerMode, indexInParent: int, totalChildren: int, f: ResizeFlags, g: ResizeFlags)
    requires mode != ArrowAfter || f.canConsumeSpaceAfterStack == g.canConsumeSpaceAfterStack
    ensures IsAccessible(mode, indexInParent, totalChildren, f) == IsAccessible(mode, indexInParent, totalChildren, g)
  {
  }
}

=== FILE: resizing_harness.dfy ===
/** The size accessor the resize engine works through, and the two derived
    operations it uses to change one element's size.

    The accessor is modelled as its state: the current size and the minimum
    size of every element of the stack, an element being named by its
    position.  Writing a size and reading it back yields the written value;
    the accessor itself never clamps. */
module ResizingHarness {
  import opened Geometry

  datatype Harness = Harness(sizes: seq<real>, minimums: seq<real>)

  /** Every element has both a size and a minimum. */
  predicate Valid(h: Harness)
  {
    |h.sizes| == |h.minimums|
  }

  predicate HasElement(h: Harness, i: int)
  {
    Valid(h) && 0 <= i < |h.sizes|
  }

  /** Every element is at or above its minimum size. */
  predicate AtOrAboveMinimums(h: Harness)
  {
    Valid(h) && forall i :: 0 <= i < |h.sizes| ==> h.sizes[i] >= h.minimums[i]
  }

  function GetSize(h: Harness, i: int): real
    requires HasElement(h, i)
  {
    h.sizes[i]
  }

  function GetMinimumSize(h: Harness, i: int): real
    requires HasElement(h, i)
  {
    h.minimums[i]
  }

  /** Writes one element's size; reading it back gives the written value and
      every other size and every minimum stay as they were. */
  function SetSize(h: Harness, i: int, size: real): (h': Harness)
    requires HasElement(h, i)
    ensures HasElement(h', i)
    ensures GetSize(h', i) == size
    ensures h'.minimums == h.minimums
    ensures |h'.sizes| == |h.sizes|
    ensures forall j :: 0 <= j < |h.sizes| && j != i ==> h'.sizes[j] == h.sizes[j]
  {
    h.(sizes := h.sizes[i := size])
  }

  /** Changes an element's size by `changeInSize`, with no clamping: the result
      may lie below the element's minimum. */
  function Resize(h: Harness, i: int, changeInSize: real): (h': Harness)
    requires HasElement(h, i)
    ensures HasElement(h', i)
    ensures GetSize(h', i) == GetSize(h, i) + changeInSize
    ensures h'.minimums == h.minimums
    ensures |h'.sizes| == |h.sizes|
    ensures forall j :: 0 <= j < |h.sizes| && j != i ==> h'.sizes[j] == h.sizes[j]
  {
    SetSize(h, i, GetSize(h, i) + changeInSize)
  }

  /** Undoing a resize restores the accessor state exactly. */
  lemma ResizeInverse(h: Harness, i: int, c: real)
    requires HasElement(h, i)
    ensures Resize(Resize(h, i, c), i, -c) == h
  {
    assert Resize(Resize(h, i, c), i, -c).sizes == h.sizes;
  }

  /** Two resizes of one element add up. */
  lemma ResizeCompose(h: Harness, i: int, a: real, b: real)
    requires HasElement(h, i)
    ensures Resize(Resize(h, i, a), i, b) == Resize(h, i, a + b)
  {
  }

  /** How a clamped resize ends: the achieved change, or the exception the
      source throws when the clamped size is negative. */
  datatype Attempt = Achieved(delta: real) | Threw

  /** The accessor state after a clamped resize together with how it ended.
      The size is written before the check that throws, so the state is
      meaningful on both outcomes. */
  datatype TryOutcome = TryOutcome(harness: Harness, attempt: Attempt)

  /** Changes an element's size by `changeInSize` but never below its minimum,
      and reports the change actually made. */
  function TryResize(h: Harness, i: int, changeInSize: real): (r: TryOutcome)
    requires HasElement(h, i)
    ensures HasElement(r.harness, i)
    ensures GetSize(r.harness, i) == Max(GetMinimumSize(h, i), GetSize(h, i) + changeInSize)
    ensures r.harness.minimums == h.minimums
    ensures |r.harness.sizes| == |h.sizes|
    ensures forall j :: 0 <= j < |h.sizes| && j != i ==> r.harness.sizes[j] == h.sizes[j]
    ensures r.attempt.Threw? <==> GetSize(r.harness, i) < 0.0
    ensures r.attempt.Threw? ==> GetMinimumSize(h, i) < 0.0
    ensures r.attempt.Achieved? ==> GetSize(r.harness, i) == GetSize(h, i) + r.attempt.delta
  {
    var originalSize := GetSize(h, i);
    var minimumSize := GetMinimumSize(h, i);
    var newSize := Max(minimumSize, originalSize + changeInSize);
    var h' := SetSize(h, i, newSize);
    if newSize < 0.0 then TryOutcome(h', Threw)
    else TryOutcome(h', Achieved(newSize - originalSize))
  }

  /** With a non-negative minimum a clamped resize never throws. */
  lemma TryResizeSucceedsWithValidMinimum(h: Harness, i: int, c: real)
    requires HasElement(h, i) && GetMinimumSize(h, i) >= 0.0
    ensures TryResize(h, i, c).attempt.Achieved?
    ensures GetSize(TryResize(h, i, c).harness, i) >= GetMinimumSize(h, i)
  {
  }

  /** When the requested size respects the minimum, a clamped resize is the
      unclamped one and achieves exactly the request. */
  lemma TryResizeExactWhenRoomy(h: Harness, i: int, c: real)
    requires HasElement(h, i)
    requires GetSize(h, i) + c >= GetMinimumSize(h, i) >= 0.0
    ensures TryResize(h, i, c) == TryOutcome(Resize(h, i, c), Achieved(c))
  {
  }

  /** From a size at or above the minimum, a shrink achieves something between
      the request and zero and a growth is achieved exactly: a clamped resize
      never overshoots and never reverses direction. */
  lemma TryResizeAchievedBounds(h: Harness, i: int, c: real)
    requires HasElement(h, i) && GetSize(h, i) >= GetMinimumSize(h, i) >= 0.0
    ensures TryResize(h, i, c).attempt.Achieved?
    ensures c < 0.0 ==> c <= TryResize(h, i, c).attempt.delta <= 0.0
    ensures c >= 0.0 ==> TryResize(h, i, c).attempt.delta == c
  {
  }

  /** A clamped resize keeps every element at or above its minimum. */
  lemma TryResizePreservesMinimums(h: Harness, i: int, c: real)
    requires HasElement(h, i) && AtOrAboveMinimums(h)
    ensures AtOrAboveMinimums(TryResize(h, i, c).harness)
  {
  }

  /** The size may already be below the minimum (only the unclamped resize can
      put it there); whenever old plus change falls below the minimum, a clamped
      resize sets the minimum and reports minimum minus old, whatever was
      requested: a growth from below the minimum, a smaller shrink from above. */
  lemma TryResizeLiftsToMinimum(h: Harness, i: int, c: real)
    requires HasElement(h, i) && GetMinimumSize(h, i) >= 0.0
    requires GetSize(h, i) + c < GetMinimumSize(h, i)
    ensures TryResize(h, i, c).attempt == Achieved(GetMinimumSize(h, i) - GetSize(h, i))
  {
  }
}

=== FILE: toolbar_dock.dfy ===
/** A toolbar dock: the stack of toolbar layers along one edge of a window.

    A dock orders its layers by level.  Each child is either a layer or some
    other control; a layer has two level values that the dock keeps apart: the
    attached `Level` property the lookup reads (default 0) and the `Level` it
    was created with. */
module ToolbarDocks {
  import opened Geometry

  /** The window edge a dock sits on, in the enumeration's order. */
  datatype Dock = Left | Bottom | Right | Top

  /** The orientation the constructor records for a dock: vertical for the
      left and right edges, horizontal for the top and bottom.  The recorded
      value is not read by any other member of the dock. */
  function DockOrientation(location: Dock): (o: Orientation)
    ensures o == Vertical <==> location == Left || location == Right
  {
    match location
    case Left | Right => Vertical
    case Top | Bottom => Horizontal
  }

  /** Maps a rectangle from the dock's own coordinates (laid out as if it were
      a top dock) to the coordinates of the panel it is arranged in. */
  function ConvertDockToPanelCoords(location: Dock, rect: Rect, availableSize: Size): (r: Rect)
    ensures DockOrientation(location) == Vertical ==> r.width == rect.height && r.height == rect.width
    ensures DockOrientation(location) == Horizontal ==> r.width == rect.width && r.height == rect.height
  {
    match location
    case Left => Rect(rect.y, rect.x, rect.height, rect.width)
    case Bottom => Rect(rect.x, availableSize.height - rect.Bottom(), rect.width, rect.height)
    case Right => Rect(availableSize.width - rect.Bottom(), rect.x, rect.height, rect.width)
    case Top => rect
  }

  /** The extent of the dock's own coordinate frame: its axes are the panel's,
      exchanged for a vertical dock. */
  function LocalSize(location: Dock, availableSize: Size): Size
  {
    if DockOrientation(location) == Vertical then Size(availableSize.height, availableSize.width)
    else availableSize
  }

  /** The conversion exchanges the axes exactly for docks that stack
      vertically, and never changes a rectangle's extents otherwise. */
  lemma ConvertSwapsAxesOfVerticalDocks(location: Dock, rect: Rect, availableSize: Size)
    ensures var r := ConvertDockToPanelCoords(location, rect, availableSize);
            if DockOrientation(location) == Vertical then r.width == rect.height && r.height == rect.width
            else r.width == rect.width && r.height == rect.height
  {
  }

  /** A top dock's coordinates are the panel's; a bottom dock mirrors them
      top to bottom and a left dock transposes them, so converting twice
      restores the rectangle for those three. */
  lemma ConvertInvolutions(location: Dock, rect: Rect, availableSize: Size)
    requires location != Right
    ensures ConvertDockToPanelCoords(location, ConvertDockToPanelCoords(location, rect, availableSize), availableSize) == rect
    ensures location == Top ==> ConvertDockToPanelCoords(location, rect, availableSize) == rect
  {
  }

  /** A right dock is a left dock mirrored left to right. */
  lemma ConvertRightIsMirroredLeft(rect: Rect, availableSize: Size)
    ensures var l := ConvertDockToPanelCoords(Left, rect, availableSize);
            ConvertDockToPanelCoords(Right, rect, availableSize)
              == Rect(availableSize.width - l.Right(), l.y, l.width, l.height)
  {
  }

  /** A rectangle inside the dock's own frame lands inside the panel. */
  lemma ConvertStaysInside(location: Dock, rect: Rect, availableSize: Size)
    requires InsideBox(rect, LocalSize(location, availableSize).width, LocalSize(location, availableSize).height)
    ensures InsideBox(ConvertDockToPanelCoords(location, rect, availableSize), availableSize.width, availableSize.height)
  {
  }

  /** A child of the dock. */
  datatype Child =
    | Layer(attachedLevel: int, level: int)   // the attached `Level` property, the layer's own `Level`
    | Other

  /** A freshly created layer: its own level set, its attached level left at
      the property's default. */
  function NewLayer(level: int): Child
  {
    Layer(0, level)
  }

  /** A layer at or beyond `level`: where the lookup stops. */
  predicate Reaches(c: Child, level: int)
  {
    c.Layer? && c.attachedLevel >= level
  }

  /** The position of the first child that reaches `level`, or the number of
      children when none does. */
  function FirstReaching(children: seq<Child>, level: int): (p: nat)
    ensures p <= |children|
    ensures forall j :: 0 <= j < p ==> !Reaches(children[j], level)
    ensures p < |children| ==> Reaches(children[p], level)
  {
    if |children| == 0 then 0
    else if Reaches(children[0], level) then 0
    else 1 + FirstReaching(children[1..], level)
  }

  /** `FirstReaching` is determined by its contract. */
  lemma FirstReachingUnique(children: seq<Child>, level: int, q: nat)
    requires q <= |children|
    requires forall j :: 0 <= j < q ==> !Reaches(children[j], level)
    requires q < |children| ==> Reaches(children[q], level)
    ensures FirstReaching(children, level) == q
  {
  }

  /** Number of layers among `children`. */
  function CountLayers(children: seq<Child>): (n: nat)
    ensures n <= |children|
  {
    if |children| == 0 then 0
    else (if children[0].Layer? then 1 else 0) + CountLayers(children[1..])
  }

  lemma CountLayersAppend(children: seq<Child>, c: Child)
    ensures CountLayers(children + [c]) == CountLayers(children) + (if c.Layer? then 1 else 0)
  {
    if |children| > 0 {
      assert (children + [c])[1..] == children[1..] + [c];
      CountLayersAppend(children[1..], c);
    }
  }

  /** `s` with `c` inserted at position `k`. */
  function Insert(s: seq<Child>, k: nat, c: Child): (r: seq<Child>)
    requires k <= |s|
    ensures |r| == |s| + 1 && r[k] == c
    ensures r[..k] + r[k + 1..] == s
    ensures forall j :: 0 <= j < k ==> r[j] == s[j]
    ensures forall j :: k < j < |r| ==> r[j] == s[j - 1]
  {
    assert (s[..k] + [c] + s[k..])[k + 1..] == s[k..];
    s[..k] + [c] + s[k..]
  }

  /** The dock's children after a lookup, the position of the layer returned,
      and whether that layer was created by the lookup. */
  datatype LayerLookup = LayerLookup(children: seq<Child>, layerAt: nat, created: bool)

  /** The loop of `FindLayerAtLevel` from child `pos`, `index` counting the
      layers already passed. */
  function ScanForLevel(children: seq<Child>, level: int, pos: nat, index: nat): LayerLookup
    requires pos <= |children| && index == CountLayers(children[..pos])
    decreases |children| - pos
  {
    if pos == |children| then
      LayerLookup(children + [NewLayer(level)], |children|, true)
    else if !children[pos].Layer? then
      assert children[..pos + 1] == children[..pos] + [children[pos]];
      CountLayersAppend(children[..pos], children[pos]);
      ScanForLevel(children, level, pos + 1, index)
    else if children[pos].attachedLevel == level then
      LayerLookup(children, pos, false)
    else if children[pos].attachedLevel > level then
      assert index <= pos;
      LayerLookup(Insert(children, index, NewLayer(level)), index, true)
    else
      assert children[..pos + 1] == children[..pos] + [children[pos]];
      CountLayersAppend(children[..pos], children[pos]);
      ScanForLevel(children, level, pos + 1, index + 1)
  }

  /** What a lookup yields, read off the first child that reaches the level:
      that layer itself when its attached level is the one sought; otherwise a
      new layer, inserted at the number of layers in front of that child, or
      appended when no child reaches the level. */
  function ExpectedLookup(children: seq<Child>, level: int): LayerLookup
  {
    var p := FirstReaching(children, level);
    if p == |children| then LayerLookup(children + [NewLayer(level)], |children|, true)
    else if children[p].attachedLevel == level then LayerLookup(children, p, false)
    else LayerLookup(Insert(children, CountLayers(children[..p]), NewLayer(level)), CountLayers(children[..p]), true)
  }

  /** The scan from child `pos` on gives the expected lookup, provided nothing
      before `pos` reaches the level. */
  lemma {:induction false} ScanMatchesExpected(children: seq<Child>, level: int, pos: nat, index: nat)
    requires pos <= |children| && index == CountLayers(children[..pos])
    requires forall j :: 0 <= j < pos ==> !Reaches(children[j], level)
    ensures ScanForLevel(children, level, pos, index) == ExpectedLookup(children, level)
    decreases |children| - pos
  {
    if pos == |children| {
      FirstReachingUnique(children, level, pos);
      assert ScanForLevel(children, level, pos, index) == LayerLookup(children + [NewLayer(level)], |children|, true);
    } else if Reaches(children[pos], level) {
      FirstReachingUnique(children, level, pos);
      if children[pos].attachedLevel == level {
        assert ScanForLevel(children, level, pos, index) == LayerLookup(children, pos, false);
      } else {
        assert ScanForLevel(children, level, pos, index)
            == LayerLookup(Insert(children, index, NewLayer(level)), index, true);
      }
    } else {
      assert children[..pos + 1] == children[..pos] + [children[pos]];
      CountLayersAppend(children[..pos], children[pos]);
      var index' := if children[pos].Layer? then index + 1 else index;
      ScanMatchesExpected(children, level, pos + 1, index');
    }
  }

  /** Finds the layer of the given level, creating one when there is none:
      the result is the expected lookup. */
  function FindLayerAtLevel(children: seq<Child>, level: int): (r: LayerLookup)
    ensures r == ExpectedLookup(children, level)
  {
    assert children[..0] == [];
    ScanMatchesExpected(children, level, 0, 0);
    ScanForLevel(children, level, 0, 0)
  }

  /** The layer a lookup returns is a layer; a layer found has the attached
      level sought and leaves the children as they were; a created layer is a
      new layer and the other children keep their order. */
  lemma LookupKeepsChildren(children: seq<Child>, level: int)
    ensures var r := FindLayerAtLevel(children, level);
            && r.layerAt < |r.children| && r.children[r.layerAt].Layer?
            && (!r.created ==> r.children == children && r.children[r.layerAt].attachedLevel == level)
            && (r.created ==> r.children[r.layerAt] == NewLayer(level) &&
                              r.children[..r.layerAt] + r.children[r.layerAt + 1..] == children)
  {
    var r := FindLayerAtLevel(children, level);
    var p := FirstReaching(children, level);
    if p == |children| {
      assert r.children[..r.layerAt] == children;
    }
  }

  /** A created layer keeps its attached level at the default 0, so for any
      other level a second lookup does not find it and creates yet another
      layer. */
  lemma RepeatedLookupCreatesAgain(children: seq<Child>, level: int)
    requires level != 0
    ensures FindLayerAtLevel(children, level).created ==>
              FindLayerAtLevel(FindLayerAtLevel(children, level).children, level).created
  {
    var r := FindLayerAtLevel(children, level);
    if r.created {
      var p := FirstReaching(children, level);
      var s := r.children;
      var k := r.layerAt;
      CreatedLayerIsInserted(children, level);
      // The second lookup stops at the new layer when it reaches the level,
      // otherwise at the child the first lookup stopped at.
      if level < 0 {
        SecondStop(children, level, k, s, k);
        StopNotSoughtCreates(s, level, k);
      } else {
        SecondStop(children, level, k, s, p + 1);
        assert p + 1 < |s| ==> s[p + 1] == children[p];
        StopNotSoughtCreates(s, level, p + 1);
      }
    }
  }

  /** A creating lookup inserts the new layer no later than where it stopped. */
  lemma CreatedLayerIsInserted(children: seq<Child>, level: int)
    ensures var r := FindLayerAtLevel(children, level);
            r.created ==> r.layerAt <= FirstReaching(children, level) &&
                          r.children == Insert(children, r.layerAt, NewLayer(level))
  {
    var p := FirstReaching(children, level);
    var r := ExpectedLookup(children, level);
    if p < |children| {
      assert children[..p][..r.layerAt] == children[..r.layerAt];
    } else {
      assert children + [NewLayer(level)] == Insert(children, |children|, NewLayer(level));
    }
  }

  /** A lookup creates a layer when it stops at no child or at a child whose
      attached level is not the one sought. */
  lemma StopNotSoughtCreates(s: seq<Child>, level: int, q: nat)
    requires FirstReaching(s, level) == q
    requires q < |s| ==> s[q].attachedLevel != level
    ensures FindLayerAtLevel(s, level).created
  {
  }

  lemma SecondStop(children: seq<Child>, level: int, k: nat, s: seq<Child>, q: nat)
    requires k <= FirstReaching(children, level) && s == Insert(children, k, NewLayer(level))
    requires q == k || q == FirstReaching(children, level) + 1
    requires q == k ==> Reaches(NewLayer(level), level)
    requires q != k ==> !Reaches(NewLayer(level), level)
    ensures FirstReaching(s, level) == q
  {
    var p := FirstReaching(children, level);
    forall j | 0 <= j < q
      ensures !Reaches(s[j], level)
    {
      if j < k { assert s[j] == children[j]; }
      else if j > k { assert s[j] == children[j - 1]; }
    }
    if q != k && q < |s| {
      assert s[q] == children[p];
    }
    FirstReachingUnique(s, level, q);
  }

  /** The lookup with the new layer inserted where the scan stopped, in
      front of the first layer of a greater attached level. */
  function FindLayerAtLevelCorrected(children: seq<Child>, level: int): (r: LayerLookup)
    ensures r.layerAt < |r.children| && r.children[r.layerAt].Layer?
    ensures !r.created ==> r.children == children && r.children[r.layerAt].attachedLevel == level
    ensures r.created ==> r.layerAt <= |children| && r.children == Insert(children, r.layerAt, NewLayer(level))
    ensures r.created ==> forall j :: 0 <= j < r.layerAt ==> !Reaches(r.children[j], level)
    ensures r.created && r.layerAt + 1 < |r.children| ==>
              r.children[r.layerAt + 1].Layer? && r.children[r.layerAt + 1].attachedLevel > level
    ensures r.created ==> r.layerAt == FirstReaching(children, level)
  {
    var p := FirstReaching(children, level);
    if p < |children| && children[p].attachedLevel == level then LayerLookup(children, p, false)
    else LayerLookup(Insert(children, p, NewLayer(level)), p, true)
  }

  /** With a control in front of the layers, the lookup as written puts a new
      level-3 layer in front of the level-1 layer it has already passed; the
      corrected lookup puts it after. */
  lemma InsertionIndexSkipsOtherChildren()
    ensures FindLayerAtLevel([Other, Layer(1, 1), Layer(5, 5)], 3)
         == LayerLookup([Other, NewLayer(3), Layer(1, 1), Layer(5, 5)], 1, true)
    ensures FindLayerAtLevelCorrected([Other, Layer(1, 1), Layer(5, 5)], 3)
         == LayerLookup([Other, Layer(1, 1), NewLayer(3), Layer(5, 5)], 2, true)
  {
    var c := [Other, Layer(1, 1), Layer(5, 5)];
    assert FirstReaching(c, 3) == 2 by { FirstReachingUnique(c, 3, 2); }
    assert c[..2] == [Other, Layer(1, 1)];
    assert CountLayers(c[..2]) == 1;
  }
}

=== FILE: wrappers.dfy ===
/** Wrappers shared by the model: a nullable value and an
    operation that either succeeds or fails with an error. */
module Wrappers {

  /** A value that may be absent (the source's nullable references). */
  datatype Option<+T> = None | Some(value: T)

  /** The outcome of an operation that may throw in the source. */
  datatype Result<+R, +E> = Success(value: R) | Failure(error: E)
}
